=== FILE: README.md ===
# Node-graph image editor: dataflow core in Dafny

This project models the dataflow core of a node-based image editor. The
user places nodes of four kinds: LoadImage, Brightness, Blur and
ProcessDisplay. Each node has integer slot ids for its input and output
ports, and links join an output slot to an input slot. Pressing "Process
Graph" on a ProcessDisplay node evaluates the chain that feeds it. The
evaluator is a memoised recursive walk that loads images the first time
they are needed, applies brightness and blur, and propagates failure as
an empty image.

Modules:

- `Images` (images.dfy) is the image library as the engine sees it.
  - An image is either empty or a symbolic matrix whose pixels record how they were made.
  - Brightness and blur therefore act as free functions that keep the size and keep emptiness.
  - The blur wrapper rounds its kernel size to an odd number with C++ truncating division.
- `NodeModel` (node_model.dfy) holds the `Node` and `Link` records and the node kinds.
- `Lookup` (lookup.dfy) holds the three first-match linear scans: node by id, link into an input slot, node by output slot.
  - Each returns the index of the first match, or `None`.
- `Evaluation` (evaluation.dfy) is the cache-free meaning of evaluation.
  - `Denote` gives the image a node stands for.
  - `Upstream` gives the node a Brightness or Blur node reads from.
  - `RankedFrom` says a rank decreases along the dependency chain from one node, so that chain ends. Nodes off the chain are unconstrained.
  - `RankedIffChainEnds` shows that such a rank exists exactly when the chain ends. Those are exactly the nodes on which the C++ recursion returns.
  - It also holds the lemmas about these: failure propagation, independence from the rank, and that loading images never changes a result.
- `Editor` (editor.dfy) is the editor state as a class `Graph`: the node and link lists and the three counters.
  - `AddNode` allocates ids and slots.
  - `HandleNodeConnection` refuses a second link into a Brightness or Blur input.
  - `ProcessGraphRecursive` is the evaluator. Its LoadImage arm is the method `LoadStep` and its Brightness/Blur arm is `ProcessSingleInput`.
  - `RequestProcessing` and `HandleProcessRequest` are the "Process Graph" trigger of a ProcessDisplay node; `ShowInput` is the part of the trigger that evaluates the display's input and stores the result with `StoreDisplay`. `EvaluateFresh` is its call of the evaluator with a new, empty cache.
- `Settings` (settings.dfy) holds the validated parameter holders: a load path, a save path, brightness, contrast, blur kernel and noise amount.

`AddNode` and `handleNodeConnection` appear twice in the sources, once in
src/main.cpp:38-104 and once, identically, in src/_Node.cpp:3-69. Both are
modelled once, by `Editor.Graph.AddNode` and `Editor.Graph.HandleNodeConnection`.

Main results:

- **The evaluator matches its specification.** Call `ProcessGraphRecursive` with a cache that agrees with `Denote`:
  - it returns `Denote` of the node, evaluated on the graph as it was before the call;
  - the cache it returns still agrees with `Denote`;
  - entries already in the cache are never overwritten;
  - the only node changes are LoadImage nodes that now hold their first-loaded image;
  - `RefreshKeepsDenote` shows that those changes do not alter any node's meaning, so evaluating again gives the same images.
  - `ServedKeepsDisplayed` carries this to the trigger: after `HandleProcessRequest` the display node would show the same image on a further request.
- **A second link into a Brightness or Blur input is refused.** `HandleNodeConnection` turns the link down exactly when its target is such an input that already has an incoming link. Otherwise it appends the link with the next link id. Either way it keeps every Brightness and Blur input at no more than one incoming link.
- **`AddNode` keeps the graph valid.** Node ids and slot ids stay distinct, and every node keeps exactly the ports its kind calls for.

A few details of the code that the model keeps:

- Loading a bad path stores an empty image. The node then counts as "loaded", so the file is not read again in later evaluations.
- The "failed to load" branch after a load can never be taken, because the assignment always fills the optional.
- The trigger uses `processedImage`, a node field that src/_Node.h does not declare. The model adds it to `Node`.

## Model

| member | source | states |
|---|---|---|
| Images.OddKernel | src/ImageProcessor.cpp:28-33 | the kernel passed to the blur is always odd; a positive odd request is kept; a non-negative request k becomes k or k+1 |
| Images.ApplyBrightness | src/ImageProcessor.cpp:16-20 | the result is empty exactly when the input is; a non-empty result has the input's rows and cols |
| Images.ApplyBlur | src/ImageProcessor.cpp:28-33 | the result is empty exactly when the input is; the size is kept; a non-empty result was blurred with an odd kernel |
| NodeModel.DeclaredNode | src/_Node.h:17-40 | a fresh node has the given id, kind and name; it has no ports (slots -1), no value, path or images, and no pending request |
| NodeModel.Ports | src/_Node.h:22-23 | a node owns exactly the slot ids among its input and output that are not -1 |
| Lookup.FindNodeById | src/utils.cpp:6-13 | a result is an index whose node has the id and no earlier node has it; None exactly when no node has it |
| Lookup.FindLinkConnectedToInput | src/utils.cpp:16-23 | a result is the first link ending at the slot; None exactly when no link ends there |
| Lookup.FindNodeByOutputAttr | src/utils.cpp:26-33 | a result is the first node whose output is the slot; None exactly when no node has that output |
| Evaluation.TruncToInt | src/utils.cpp:105-107 | the result is the value truncated toward zero: it lies within one of the value, on the zero side |
| Evaluation.BrightnessOffset | src/utils.cpp:102-105 | the brightness offset is 0 without a value, else the value truncated toward zero |
| Evaluation.BlurKernel | src/utils.cpp:102-112 | the kernel is always positive and odd; it is the truncated value when that is positive and odd, and 3 otherwise |
| Evaluation.LoadResult | src/utils.cpp:53-72 | no path (or an empty one) gives an empty image; an image already held is reused; otherwise the result is what loading the path gives |
| Evaluation.Transform | src/utils.cpp:96-115 | a Brightness/Blur step gives an empty image exactly when its input is empty, and keeps the size otherwise |
| Evaluation.InputSource | src/utils.cpp:79-91 | the node feeding an input slot is the first node owning the output at which the first link into the slot starts; there is none exactly when no link ends at the slot or that first link starts at no node's output, even if a later link into the slot would resolve |
| Evaluation.Upstream | src/utils.cpp:75-91 | only Brightness/Blur nodes have a dependency, and theirs is the node feeding their input slot |
| Evaluation.Next | src/utils.cpp:44-94 | a node has a next node on its chain exactly when it exists and has a dependency, and the next node is that dependency's id, the id the recursion is called on |
| Evaluation.EndsWithinMore | src/utils.cpp:94 | once a chain ends within some number of steps it ends within any larger number, with the same distance |
| Evaluation.RankedChainEnds | src/utils.cpp:94 | a chain with a decreasing rank ends within rank + 1 steps |
| Evaluation.ChainEndsRanked | src/utils.cpp:94 | a chain that ends is ranked by each node's distance to its end |
| Evaluation.RankedIffChainEnds | src/utils.cpp:38-135 | a rank exists along a node's chain exactly when that chain ends, i.e. exactly when the C++ recursion from that node returns |
| Evaluation.SelfLoopHasNoRank | src/utils.cpp:94 | a node that feeds its own input has no rank: its evaluation would never end |
| Evaluation.Denote | src/utils.cpp:52-123 | the cache-free result of evaluating a node: a missing or ProcessDisplay node gives empty, LoadImage its load result, Brightness/Blur its operation on the upstream image or empty without one; a non-empty result needs an existing node that is not a display and, for Brightness/Blur, has a dependency |
| Evaluation.Displayed | src/main.cpp:315-323 | what a ProcessDisplay node shows is never an empty image, and an unlinked display shows nothing |
| Evaluation.CoherentStore | src/utils.cpp:133 | storing a node's true value keeps every cache entry equal to what its node denotes |
| Evaluation.Source | src/utils.cpp:53-94 | the end of a node's dependency chain, when found, is a LoadImage node |
| Evaluation.DenoteComesFromSource | src/utils.cpp:94-98 | failure propagates: a node's image is non-empty exactly when its chain ends at a LoadImage node whose image is non-empty, and then it has that image's size |
| Evaluation.DenoteIgnoresRank | src/utils.cpp:94 | what a node evaluates to does not depend on which rank witnesses that its chain ends |
| Evaluation.AgreeKeepsUpstream | src/utils.cpp:79-91 | graphs that agree on ids, kinds, slots, values and loading have the same lookups and dependencies |
| Evaluation.AgreeKeepsDenote | src/main.cpp:313-321 | a rank along a node's chain in one of two agreeing graphs is one in the other, and the node evaluates to the same image in both, so resetting a display node's flag does not change evaluation |
| Evaluation.AgreeKeepsDisplayed | src/main.cpp:313-323 | agreeing graphs feed a display input from the same node and show the same image |
| Evaluation.ServedKeepsDisplayed | src/main.cpp:312-369 | after a request is served (flag cleared, the display's stored images rewritten, first loads elsewhere) the display's input is still fed from a ranked chain and shows the same image as before |
| Evaluation.RefreshKeepsDenote | src/utils.cpp:58-64 | images a LoadImage node loads during evaluation change no node's meaning, so evaluating again gives the same results |
| Editor.AppendFreshNode | src/main.cpp:38-59 | a node with the next id and only slot ids at or above the old slot counter keeps ids and slots distinct |
| Editor.IncomingCountAppend | src/main.cpp:100 | appending a link adds one incoming link to its own target slot and to no other |
| Editor.IncomingCountZero | src/main.cpp:84-90 | a slot has zero incoming links exactly when no link ends there |
| Editor.ConnectKeepsFanIn | src/main.cpp:94-100 | a link the connection rule accepts keeps every Brightness/Blur input at no more than one incoming link |
| Editor.AddNodeKeepsFanIn | src/main.cpp:52-58 | a node whose input slot no link targets yet keeps every Brightness/Blur input at no more than one incoming link |
| Editor.AddNodeKeepsGraph | src/main.cpp:38-59 | appending a node with the next id and fresh slots keeps ids unique, ports per kind and slots unshared, and keeps fan-in when links end only at handed-out slots |
| Editor.AgreeKeepsGraph | src/utils.cpp:58-64 | node lists that agree on ids, kinds, slots, values and loading are valid and well wired alike, so loading images and rewriting a display's stored images keep the editor's invariant |
| Editor.Graph.constructor | src/main.cpp:19-23 | the editor starts with no nodes or links, node and link counters 0 and slot counter 1000, valid and well wired |
| Editor.Graph.AddNode | src/main.cpp:38-59 | appends one node with the next id, leaving the others unchanged. LoadImage gets one output slot, ProcessDisplay one input slot, Brightness/Blur an input and an output slot and value 0. The counters advance by what was used, and validity and fan-in are kept |
| Editor.Graph.HandleNodeConnection | src/main.cpp:61-104 | refuses the link exactly when its target is a Brightness/Blur input that already has an incoming link; otherwise appends it with the next link id; keeps ids unique and fan-in at one or less |
| Editor.Graph.ProcessGraphRecursive | src/utils.cpp:38-135 | a cache hit returns the cached image unchanged; a missing node gives an empty image and is not cached; otherwise the result is cached under the node. With a coherent cache the result is the node's denotation and the cache stays coherent; old entries are kept; nodes change only by first loads |
| Editor.Graph.LoadStep | src/utils.cpp:53-73 | a LoadImage node yields its load result; a node with a path stores that image, and a node without one is unchanged; validity and wiring are kept |
| Editor.Graph.ProcessSingleInput | src/utils.cpp:75-117 | a Brightness/Blur node with no dependency yields an empty image and changes nothing; otherwise the dependency is evaluated into the cache and the result is the node's step applied to it |
| Editor.Graph.EvaluateFresh | src/main.cpp:320-321 | evaluation with a new, empty cache returns what the node denotes and changes nodes only by first loads; validity and wiring are kept |
| Editor.Graph.RequestProcessing | src/main.cpp:307-309 | pressing "Process Graph" sets the node's request flag and changes nothing else; validity and wiring are kept, and what the node would display, and whether its feed is ranked, are unchanged |
| Editor.Graph.HandleProcessRequest | src/main.cpp:311-313 | on any graph, without a request nothing changes; with one (and a ranked feed) the flag is cleared and both stored images become what the node displays (cleared when nothing is shown or the texture fails); other nodes change only by first loads; a further request would show the same image; validity and wiring are kept |
| Editor.Graph.ShowInput | src/main.cpp:314-369 | both stored images of the display become the non-empty image its feeding node evaluates to, or are cleared when the input is unlinked, its first link dangles, the evaluation is empty or the texture fails; other nodes change only by first loads; validity and wiring are kept |
| Editor.Graph.StoreDisplay | src/main.cpp:325-337 | sets both stored images of a display node to the same value, changes nothing else, and keeps validity and wiring |
| Settings.LoadSettings.constructor | src/Settings.cpp:6-13 | the load path read back is the one given at construction |
| Settings.SaveSettings.constructor | src/Settings.cpp:18-25 | the save path read back is the one given at construction |
| Settings.BrightnessSettings.constructor | src/Settings.cpp:41-42 | brightness starts at 0, within range |
| Settings.BrightnessSettings.GetBrightnessVal | src/Settings.cpp:30-32 | the percentage read from a valid holder lies in [-100, 100] |
| Settings.BrightnessSettings.SetBrightnessVal | src/Settings.cpp:34-39 | accepts exactly the values in [-100, 100]; on success the argument holder reads back the new value, on failure its old one; validity is kept |
| Settings.ContrastSettings.constructor | src/Settings.cpp:57-58 | contrast starts at 1.0, within range |
| Settings.ContrastSettings.GetValue | src/Settings.cpp:47-49 | the factor read from a valid holder lies in [0.0, 3.0] |
| Settings.ContrastSettings.SetValue | src/Settings.cpp:51-55 | accepts exactly [0.0, 3.0] with both ends; reads back the new value on success and the old one on failure; validity is kept |
| Settings.BlurSettings.constructor | src/Settings.cpp:73-74 | the kernel size starts at 3, positive and odd |
| Settings.BlurSettings.GetKernelSize | src/Settings.cpp:63-65 | the kernel size read from a valid holder is positive and odd |
| Settings.BlurSettings.SetKernelSize | src/Settings.cpp:67-71 | accepts exactly the positive odd sizes; reads back the new size on success and the old one on failure; the size stays positive and odd |
| Settings.NoiseSettings.constructor | src/Settings.cpp:89-90 | the noise amount starts at 0.05, within range |
| Settings.NoiseSettings.GetAmount | src/Settings.cpp:79-81 | the amount read from a valid holder lies in [0.0, 1.0] |
| Settings.NoiseSettings.SetAmount | src/Settings.cpp:83-87 | accepts exactly [0.0, 1.0] with both ends; reads back the new amount on success and the old one on failure; validity is kept |

## Left out

- ImGui/ImNodes rendering and the other editor-only node fields are not modelled.
  - This covers node position, width, texture id and displayed size, and the display code.
  - Creating the OpenGL texture is an outside call. Its outcome is the parameter `textureOk` of `HandleProcessRequest`.
- OpenCV is not modelled at the pixel level.
  - `cv::imread` is the function parameter `loadImage`.
  - Brightness and blur are symbolic terms; contrast, blend, save and show are not used by the core.
- Console logging is left out.
  - It has no effect on state.
- `ConvolutionSettings` only clones an opaque `cv::Mat`.
  - src/Node.cpp is not part of this model.
- The unused local `targetNodeId` of `handleNodeConnection` is not modelled.
  - It has no effect on the result.
- Editor.Graph.ProcessGraphRecursive: modelled only from a node whose dependency chain ends (`RankedFrom`).
  - On a chain that runs into a cycle the C++ recursion never ends: the cache is written only after the recursive call returns.
  - `RankedIffChainEnds` shows these are exactly the excluded calls. Cycles elsewhere in the graph do not matter.
- Editor.Graph.HandleProcessRequest: when a request is pending, requires the same of the node feeding the display (`FeedRanked`), for the same reason. Without a request it accepts any graph, cyclic or not, as the C++ code skips the block.
- Editor.Graph.ShowInput: requires `FeedRanked`, as it always evaluates.
- Editor.Graph.ProcessGraphRecursive and Editor.Graph.ProcessSingleInput do not restate validity; they ensure `Refreshed`, from which `AgreeKeepsGraph` gives it, and `EvaluateFresh` states it.
- Editor.Graph.AddNode: the counters are unbounded integers, so the 32-bit `int` overflow of `nodeCounter` and `slotCounter` after about 2^31 additions is not modelled.
- Editor.Graph.HandleNodeConnection: the 32-bit overflow of `linkCounter` is not modelled. Link ids are distinct only because the counter is unbounded.
- Editor.Graph.AddNode: preserves fan-in only when no link already targets a slot id not yet handed out (`Wired`).
  - `handleNodeConnection` accepts any integer pair.
- Evaluation.TruncToInt: a node value is an exact real, not a 32-bit float.
  - NaN, infinities and values outside the `int` range, where `static_cast<int>` is undefined, are not modelled.
- Settings.ContrastSettings.SetValue: doubles are modelled as reals.
  - A NaN argument fails both comparisons of the C++ guard and is stored. The model has no NaN.
- Settings.NoiseSettings.SetAmount: the same NaN gap as `SetValue`.
- Cycle detection, node and link deletion, and checking that a link starts at an output are not behaviour of the code.
  - The model adds none of them.

=== FILE: editor.dfy ===
/**
  The editor's graph: the node and link lists with the three id counters,
  adding nodes, connecting slots, the memoised recursive evaluator and the
  "Process Graph" request of a ProcessDisplay node.
*/
module Editor {
  import opened Images
  import opened NodeModel
  import opened Lookup
  import opened Evaluation

  /** The first slot id handed out; slot ids only grow from here. */
  const FirstSlot: int := 1000

  /** A node owns exactly the ports its kind calls for, all allocated below `slotCounter`. */
  predicate WellPorted(n: Node, slotCounter: int) {
    match n.kind
    case LoadImage =>
      n.inputSlotId == NoSlot && FirstSlot <= n.outputSlotId < slotCounter
    case ProcessDisplay =>
      n.outputSlotId == NoSlot && FirstSlot <= n.inputSlotId < slotCounter
    case _ =>
      && FirstSlot <= n.inputSlotId < slotCounter
      && FirstSlot <= n.outputSlotId < slotCounter
      && n.inputSlotId != n.outputSlotId
  }

  /**
    Node ids are distinct and below `nodeCounter`; every node has the ports
    its kind calls for; no two nodes share a slot id.
  */
  ghost predicate NodesValid(nodes: seq<Node>, nodeCounter: int, slotCounter: int) {
    && 0 <= nodeCounter && FirstSlot <= slotCounter
    && (forall j :: 0 <= j < |nodes| ==> 0 <= nodes[j].id < nodeCounter && WellPorted(nodes[j], slotCounter))
    && (forall a, b :: 0 <= a < b < |nodes| ==> nodes[a].id != nodes[b].id && Ports(nodes[a]) !! Ports(nodes[b]))
  }

  /** Every port `n` owns was handed out at or after `slotCounter`. */
  predicate FreshPorts(n: Node, slotCounter: int) {
    (n.inputSlotId == NoSlot || slotCounter <= n.inputSlotId) && (n.outputSlotId == NoSlot || slotCounter <= n.outputSlotId)
  }

  /**
    A node that takes the next node id and only slot ids at or above the
    old slot counter keeps ids and slots unique.
  */
  lemma AppendFreshNode(nodes: seq<Node>, n: Node, nodeCounter: int, slotCounter: int, slotCounter': int)
    requires NodesValid(nodes, nodeCounter, slotCounter)
    requires n.id == nodeCounter && slotCounter <= slotCounter' && WellPorted(n, slotCounter') && FreshPorts(n, slotCounter)
    ensures NodesValid(nodes + [n], nodeCounter + 1, slotCounter')
  {
    var all := nodes + [n];
    forall j | 0 <= j < |all|
      ensures 0 <= all[j].id < nodeCounter + 1 && WellPorted(all[j], slotCounter')
    {
      if j < |nodes| {
        assert all[j] == nodes[j];
        assert WellPorted(nodes[j], slotCounter);
      }
    }
    forall a, b | 0 <= a < b < |all|
      ensures all[a].id != all[b].id && Ports(all[a]) !! Ports(all[b])
    {
      if b == |nodes| {
        assert all[a] == nodes[a] && all[b] == n;
        assert WellPorted(nodes[a], slotCounter);
        assert forall s :: s in Ports(nodes[a]) ==> s < slotCounter;
      } else {
        assert all[a] == nodes[a] && all[b] == nodes[b];
      }
    }
  }

  /** Number of links that end at `slot`. */
  function IncomingCount(links: seq<Link>, slot: int): nat {
    if |links| == 0 then 0
    else (if links[0].toSlot == slot then 1 else 0) + IncomingCount(links[1..], slot)
  }

  /** Some link already ends at `slot`. */
  ghost predicate HasIncoming(links: seq<Link>, slot: int) {
    exists m :: 0 <= m < |links| && links[m].toSlot == slot
  }

  /** `slot` is the input of a Brightness or Blur node. */
  ghost predicate IsGuardedInput(nodes: seq<Node>, slot: int) {
    exists j :: 0 <= j < |nodes| && nodes[j].inputSlotId == slot && SingleInput(nodes[j].kind)
  }

  /** A new link into `endAttr` is turned down: it is a guarded input that is already linked. */
  ghost predicate Refused(nodes: seq<Node>, links: seq<Link>, endAttr: int) {
    IsGuardedInput(nodes, endAttr) && HasIncoming(links, endAttr)
  }

  /** Every Brightness and Blur input has at most one incoming link. */
  ghost predicate FanInOk(nodes: seq<Node>, links: seq<Link>) {
    forall j :: 0 <= j < |nodes| && SingleInput(nodes[j].kind) ==> IncomingCount(links, nodes[j].inputSlotId) <= 1
  }

  /** Appending a link adds one to the count of its own end slot and to no other. */
  lemma {:induction false} IncomingCountAppend(links: seq<Link>, l: Link, slot: int)
    ensures IncomingCount(links + [l], slot) == IncomingCount(links, slot) + (if l.toSlot == slot then 1 else 0)
  {
    if |links| == 0 {
      assert links + [l] == [l];
    } else {
      assert (links + [l])[1..] == links[1..] + [l];
      IncomingCountAppend(links[1..], l, slot);
    }
  }

  /** No link is counted into a slot exactly when no link ends there. */
  lemma {:induction false} IncomingCountZero(links: seq<Link>, slot: int)
    ensures IncomingCount(links, slot) == 0 <==> !HasIncoming(links, slot)
  {
    if |links| > 0 {
      IncomingCountZero(links[1..], slot);
      if HasIncoming(links[1..], slot) {
        var m :| 0 <= m < |links[1..]| && links[1..][m].toSlot == slot;
        assert links[m + 1].toSlot == slot;
      }
      if links[0].toSlot != slot && HasIncoming(links, slot) {
        var m :| 0 <= m < |links| && links[m].toSlot == slot;
        assert links[1..][m - 1].toSlot == slot;
      }
    }
  }

  /** A link the connection rule accepts keeps every Brightness and Blur input at fan-in one or less. */
  lemma ConnectKeepsFanIn(nodes: seq<Node>, links: seq<Link>, l: Link)
    requires FanInOk(nodes, links)
    requires !Refused(nodes, links, l.toSlot)
    ensures FanInOk(nodes, links + [l])
  {
    forall j | 0 <= j < |nodes| && SingleInput(nodes[j].kind)
      ensures IncomingCount(links + [l], nodes[j].inputSlotId) <= 1
    {
      IncomingCountAppend(links, l, nodes[j].inputSlotId);
      if l.toSlot == nodes[j].inputSlotId {
        assert IsGuardedInput(nodes, l.toSlot);
        IncomingCountZero(links, l.toSlot);
      }
    }
  }

  /** A node whose input slot no link targets yet keeps every Brightness and Blur input at fan-in one or less. */
  lemma AddNodeKeepsFanIn(nodes: seq<Node>, links: seq<Link>, n: Node, bound: int)
    requires FanInOk(nodes, links)
    requires forall m :: 0 <= m < |links| ==> links[m].toSlot < bound
    requires SingleInput(n.kind) ==> bound <= n.inputSlotId
    ensures FanInOk(nodes + [n], links)
  {
    if SingleInput(n.kind) {
      IncomingCountZero(links, n.inputSlotId);
    }
    assert forall j :: 0 <= j < |nodes| ==> (nodes + [n])[j] == nodes[j];
  }

  /**
    Structural invariant of the editor state: node ids and link ids are
    distinct and below their counters; every node has the ports its kind
    calls for; no two nodes share a slot id.
  */
  ghost predicate GraphValid(nodes: seq<Node>, links: seq<Link>, nodeCounter: int, slotCounter: int, linkCounter: int) {
    && NodesValid(nodes, nodeCounter, slotCounter)
    && 0 <= linkCounter
    && (forall m :: 0 <= m < |links| ==> 0 <= links[m].id < linkCounter)
    && (forall a, b :: 0 <= a < b < |links| ==> links[a].id != links[b].id)
  }

  /** Brightness and Blur inputs have at most one incoming link, and links end only at slot ids already handed out. */
  ghost predicate GraphWired(nodes: seq<Node>, links: seq<Link>, slotCounter: int) {
    FanInOk(nodes, links) && forall m :: 0 <= m < |links| ==> links[m].toSlot < slotCounter
  }

  /** Appending a node with the next id and fresh slots keeps the editor state valid and well wired. */
  lemma AddNodeKeepsGraph(nodes: seq<Node>, links: seq<Link>, n: Node,
                          nodeCounter: int, slotCounter: int, slotCounter': int, linkCounter: int)
    requires GraphValid(nodes, links, nodeCounter, slotCounter, linkCounter)
    requires n.id == nodeCounter && slotCounter <= slotCounter' && WellPorted(n, slotCounter') && FreshPorts(n, slotCounter)
    ensures GraphValid(nodes + [n], links, nodeCounter + 1, slotCounter', linkCounter)
    ensures GraphWired(nodes, links, slotCounter) ==> GraphWired(nodes + [n], links, slotCounter')
  {
    AppendFreshNode(nodes, n, nodeCounter, slotCounter, slotCounter');
    if GraphWired(nodes, links, slotCounter) {
      AddNodeKeepsFanIn(nodes, links, n, slotCounter);
    }
  }

  /**
    Node sequences that agree on what evaluation reads have the same ids,
    kinds and slots, so validity and wiring carry over between them.
  */
  lemma AgreeKeepsGraph(a: seq<Node>, b: seq<Node>, links: seq<Link>, loadImage: string -> Image,
                        nodeCounter: int, slotCounter: int, linkCounter: int)
    requires AgreeAll(a, b, loadImage)
    ensures GraphValid(a, links, nodeCounter, slotCounter, linkCounter) <==> GraphValid(b, links, nodeCounter, slotCounter, linkCounter)
    ensures GraphWired(a, links, slotCounter) <==> GraphWired(b, links, slotCounter)
  {
    assert forall j :: 0 <= j < |a| ==> Agree(a[j], b[j], loadImage);
    assert forall j :: 0 <= j < |a| ==> Ports(a[j]) == Ports(b[j]);
  }

  class Graph {
    var nodes: seq<Node>
    var links: seq<Link>
    var nodeCounter: int
    var slotCounter: int
    var linkCounter: int

    /**
      Structural invariant: node ids and link ids are distinct and below
      their counters; every node has the ports its kind calls for; no two
      nodes share a slot id, and no allocated slot is -1.
    */
    ghost predicate Valid()
      reads this
    {
      GraphValid(nodes, links, nodeCounter, slotCounter, linkCounter)
    }

    ghost predicate Wired()
      reads this
    {
      GraphWired(nodes, links, slotCounter)
    }

    /** The empty editor: counters at their initial values. */
    constructor ()
      ensures Valid() && Wired()
      ensures nodes == [] && links == []
      ensures nodeCounter == 0 && slotCounter == FirstSlot && linkCounter == 0
    {
      nodes, links := [], [];
      nodeCounter, slotCounter, linkCounter := 0, FirstSlot, 0;
    }

    /**
      Appends one node with the next node id and the next slot id(s):
      LoadImage gets an output only, ProcessDisplay an input only, the
      others an input and an output and the value 0.
    */
    method AddNode(kind: OperationType, name: string)
      requires Valid()
      modifies this`nodes, this`nodeCounter, this`slotCounter
      ensures Valid()
      ensures nodeCounter == old(nodeCounter) + 1
      ensures |nodes| == |old(nodes)| + 1 && nodes[..|old(nodes)|] == old(nodes)
      ensures var n := nodes[|old(nodes)|];
              && n.id == old(nodeCounter) && n.kind == kind && n.name == name
              && n.imagePath.None? && n.loadedCvImage.None? && n.processedImage.None?
              && !n.processingRequested
      ensures var n := nodes[|old(nodes)|];
              kind == LoadImage ==>
                && n.inputSlotId == NoSlot && n.outputSlotId == old(slotCounter)
                && n.value.None? && slotCounter == old(slotCounter) + 1
      ensures var n := nodes[|old(nodes)|];
              kind == ProcessDisplay ==>
                && n.inputSlotId == old(slotCounter) && n.outputSlotId == NoSlot
                && n.value.None? && slotCounter == old(slotCounter) + 1
      ensures var n := nodes[|old(nodes)|];
              SingleInput(kind) ==>
                && n.inputSlotId == old(slotCounter) && n.outputSlotId == old(slotCounter) + 1
                && n.value == Some(0.0) && slotCounter == old(slotCounter) + 2
      ensures old(Wired()) ==> Wired()
    {
      var node := DeclaredNode(nodeCounter, kind, name);
      nodeCounter := nodeCounter + 1;
      if kind == LoadImage {
        node := node.(outputSlotId := slotCounter);
        slotCounter := slotCounter + 1;
      } else if kind == ProcessDisplay {
        node := node.(inputSlotId := slotCounter);
        slotCounter := slotCounter + 1;
      } else {
        node := node.(inputSlotId := slotCounter);
        slotCounter := slotCounter + 1;
        node := node.(outputSlotId := slotCounter);
        slotCounter := slotCounter + 1;
        node := node.(value := Some(0.0));
      }
      AddNodeKeepsGraph(nodes, links, node, old(nodeCounter), old(slotCounter), slotCounter, linkCounter);
      nodes := nodes + [node];
    }

    /**
      Adds the link `startAttr -> endAttr` with the next link id, unless
      `endAttr` is the input of a Brightness or Blur node that already has
      an incoming link. Nothing else is checked.
    */
    method HandleNodeConnection(startAttr: int, endAttr: int)
      requires Valid()
      modifies this`links, this`linkCounter
      ensures Valid()
      ensures Refused(nodes, old(links), endAttr) ==>
                links == old(links) && linkCounter == old(linkCounter)
      ensures !Refused(nodes, old(links), endAttr) ==>
                && links == old(links) + [Link(old(linkCounter), startAttr, endAttr)]
                && linkCounter == old(linkCounter) + 1
      ensures FanInOk(nodes, old(links)) ==> FanInOk(nodes, links)
      ensures old(Wired()) && endAttr < slotCounter ==> Wired()
    {
      var targetIsInput := false;
      var alreadyConnected := false;

      var k := 0;
      while k < |nodes|
        invariant 0 <= k <= |nodes|
        invariant !targetIsInput
        invariant forall j :: 0 <= j < k ==> !(nodes[j].inputSlotId == endAttr && SingleInput(nodes[j].kind))
      {
        if nodes[k].inputSlotId == endAttr {
          if nodes[k].kind == Brightness || nodes[k].kind == Blur {
            targetIsInput := true;
            break;
          }
        }
        k := k + 1;
      }
      assert targetIsInput <==> IsGuardedInput(nodes, endAttr);

      if targetIsInput {
        var m := 0;
        while m < |links|
          invariant 0 <= m <= |links|
          invariant !alreadyConnected
          invariant forall q :: 0 <= q < m ==> links[q].toSlot != endAttr
        {
          if links[m].toSlot == endAttr {
            alreadyConnected := true;
            break;
          }
          m := m + 1;
        }
        assert alreadyConnected <==> HasIncoming(links, endAttr);
      }

      if !alreadyConnected || !targetIsInput {
        var link := Link(linkCounter, startAttr, endAttr);
        if FanInOk(nodes, links) {
          ConnectKeepsFanIn(nodes, links, link);
        }
        links := links + [link];
        linkCounter := linkCounter + 1;
      }
    }

    /**
      Evaluates node `nodeId`, memoising in the cache that is threaded
      through the calls. A cached entry is returned as is; a missing node
      gives an empty image and is not cached; otherwise the result, empty
      on failure, is stored under `nodeId` and returned. A LoadImage node
      reads its image the first time it is needed and keeps it.
    */
    method ProcessGraphRecursive(nodeId: int, cache: map<int, Image>, loadImage: string -> Image, ghost rank: int -> nat)
      returns (result: Image, cacheOut: map<int, Image>)
      requires RankedFrom(nodes, links, rank, nodeId)
      modifies this`nodes
      decreases rank(nodeId), 1
      ensures Refreshed(old(nodes), nodes, loadImage)
      ensures forall k :: k in cache ==> k in cacheOut && cacheOut[k] == cache[k]
      ensures nodeId in cache ==> result == cache[nodeId] && cacheOut == cache && nodes == old(nodes)
      ensures nodeId !in cache && FindNodeById(nodeId, old(nodes)).None? ==>
                IsEmpty(result) && cacheOut == cache && nodes == old(nodes)
      ensures FindNodeById(nodeId, old(nodes)).Some? ==> nodeId in cacheOut && cacheOut[nodeId] == result
      ensures nodeId !in cache && FindNodeById(nodeId, old(nodes)).Some? ==>
                LocalStep(old(nodes), nodes, links, loadImage, FindNodeById(nodeId, old(nodes)).value, cacheOut, result)
      ensures Coherent(old(nodes), links, loadImage, rank, cache) ==>
                && result == Denote(old(nodes), links, loadImage, rank, nodeId)
                && Coherent(old(nodes), links, loadImage, rank, cacheOut)
    {
      if nodeId in cache {
        return cache[nodeId], cache;
      }

      var found := FindNodeById(nodeId, nodes);
      if found.None? {
        return Empty, cache;
      }
      var i := found.value;
      var currentNode := nodes[i];
      ghost var coherent := Coherent(nodes, links, loadImage, rank, cache);
      DenoteAt(nodes, links, loadImage, rank, nodeId, i);
      ghost var denoted := Denote(nodes, links, loadImage, rank, nodeId);
      assert old(nodes) == nodes;

      var resultImage: Image;
      cacheOut := cache;
      match currentNode.kind {
        case LoadImage =>
          resultImage := LoadStep(i, loadImage);
          assert coherent ==> resultImage == denoted;

        case Brightness | Blur =>
          resultImage, cacheOut := ProcessSingleInput(nodeId, i, cache, loadImage, rank);
          ghost var up := Upstream(old(nodes), links, currentNode);
          if coherent && up.Some? {
            ghost var prevId := old(nodes)[up.value].id;
            assert cacheOut[prevId] == Denote(old(nodes), links, loadImage, rank, prevId);
          }
          assert coherent ==> resultImage == denoted;

        case ProcessDisplay =>
          resultImage := Empty;
      }

      if coherent {
        assert resultImage == denoted;
        CoherentStore(old(nodes), links, loadImage, rank, cacheOut, nodeId, resultImage);
      }
      cacheOut := cacheOut[nodeId := resultImage];
      result := resultImage;
    }

    /**
      The LoadImage arm of the evaluation of node `i`: a node with a
      non-empty path reads its file once, the first time it is evaluated,
      and then yields the stored image; a node without a path yields an
      empty image.
    */
    method LoadStep(i: nat, loadImage: string -> Image) returns (resultImage: Image)
      requires i < |nodes| && nodes[i].kind == LoadImage
      modifies this`nodes
      ensures resultImage == LoadResult(old(nodes)[i], loadImage)
      ensures HasPath(old(nodes)[i]) ==> nodes == old(nodes)[i := old(nodes)[i].(loadedCvImage := Some(resultImage))]
      ensures !HasPath(old(nodes)[i]) ==> nodes == old(nodes)
      ensures Refreshed(old(nodes), nodes, loadImage)
      ensures old(Valid()) ==> Valid()
      ensures old(Wired()) ==> Wired()
    {
      var currentNode := nodes[i];
      if currentNode.imagePath.Some? && currentNode.imagePath.value != "" {
        if currentNode.loadedCvImage.None? {
          nodes := nodes[i := currentNode.(loadedCvImage := Some(loadImage(currentNode.imagePath.value)))];
        }
        if nodes[i].loadedCvImage.Some? {
          resultImage := nodes[i].loadedCvImage.value;
        } else {
          resultImage := Empty;
        }
        assert nodes == old(nodes)[i := currentNode.(loadedCvImage := Some(resultImage))];
      } else {
        resultImage := Empty;
      }
      assert Refreshed(old(nodes), nodes, loadImage) by {
        forall j | 0 <= j < |nodes| ensures RefreshedNode(old(nodes)[j], nodes[j], loadImage) {
          if j != i { assert nodes[j] == old(nodes)[j]; }
        }
      }
      assert AgreeAll(old(nodes), nodes, loadImage);
      AgreeKeepsGraph(old(nodes), nodes, links, loadImage, nodeCounter, slotCounter, linkCounter);
    }

    /**
      The Brightness and Blur arm of the evaluation of node `i`: follows the
      first link into the node's input to the first node with that output
      slot, evaluates it, and applies the node's operation to a non-empty
      input. An unlinked input, a dangling link or an empty input give an
      empty image.
    */
    method ProcessSingleInput(nodeId: int, i: nat, cache: map<int, Image>, loadImage: string -> Image, ghost rank: int -> nat)
      returns (resultImage: Image, cacheOut: map<int, Image>)
      requires FindNodeById(nodeId, nodes) == Some(i) && SingleInput(nodes[i].kind)
      requires RankedFrom(nodes, links, rank, nodeId)
      modifies this`nodes
      decreases rank(nodeId), 0
      ensures Refreshed(old(nodes), nodes, loadImage)
      ensures forall k :: k in cache ==> k in cacheOut && cacheOut[k] == cache[k]
      ensures LocalStep(old(nodes), nodes, links, loadImage, i, cacheOut, resultImage)
      ensures Coherent(old(nodes), links, loadImage, rank, cache) ==> Coherent(old(nodes), links, loadImage, rank, cacheOut)
    {
      var currentNode := nodes[i];
      cacheOut := cache;
      var inputLink := FindLinkConnectedToInput(currentNode.inputSlotId, links);
      if inputLink.None? {
        resultImage := Empty;
        assert Upstream(nodes, links, currentNode).None?;
        return;
      }
      var prevNode := FindNodeByOutputAttr(links[inputLink.value].fromSlot, nodes);
      assert Upstream(nodes, links, currentNode) == prevNode;
      if prevNode.None? {
        resultImage := Empty;
        return;
      }
      var prevId := nodes[prevNode.value].id;
      var inputImage;
      inputImage, cacheOut := ProcessGraphRecursive(prevId, cache, loadImage, rank);
      assert prevId in cacheOut && cacheOut[prevId] == inputImage;
      if IsEmpty(inputImage) {
        resultImage := Empty;
      } else {
        var value := currentNode.value.GetOr(0.0);
        if currentNode.kind == Brightness {
          resultImage := ApplyBrightness(inputImage, TruncToInt(value));
        } else {
          var kernelSize := TruncToInt(value);
          if kernelSize <= 0 || kernelSize % 2 == 0 {
            kernelSize := 3;
          }
          resultImage := ApplyBlur(inputImage, kernelSize);
        }
      }
      assert resultImage == Transform(currentNode, inputImage);
    }

    /**
      Evaluates node `nodeId` with a fresh, empty cache, as one "Process
      Graph" request does: the result is what the node denotes.
    */
    method EvaluateFresh(nodeId: int, loadImage: string -> Image, ghost rank: int -> nat) returns (result: Image)
      requires RankedFrom(nodes, links, rank, nodeId)
      modifies this`nodes
      ensures result == Denote(old(nodes), links, loadImage, rank, nodeId)
      ensures Refreshed(old(nodes), nodes, loadImage)
      ensures old(Valid()) ==> Valid()
      ensures old(Wired()) ==> Wired()
    {
      var processingCache;
      result, processingCache := ProcessGraphRecursive(nodeId, map[], loadImage, rank);
      assert AgreeAll(old(nodes), nodes, loadImage);
      AgreeKeepsGraph(old(nodes), nodes, links, loadImage, nodeCounter, slotCounter, linkCounter);
    }

    /** The "Process Graph" button of ProcessDisplay node `i` asks for an evaluation. */
    method RequestProcessing(i: nat, ghost loadImage: string -> Image, ghost rank: int -> nat)
      requires i < |nodes|
      modifies this`nodes
      ensures nodes == old(nodes)[i := old(nodes)[i].(processingRequested := true)]
      ensures old(Valid()) ==> Valid()
      ensures old(Wired()) ==> Wired()
      ensures FeedRanked(old(nodes), links, rank, old(nodes)[i].inputSlotId) ==>
                && FeedRanked(nodes, links, rank, nodes[i].inputSlotId)
                && Displayed(nodes, links, loadImage, rank, nodes[i]) == Displayed(old(nodes), links, loadImage, rank, old(nodes)[i])
    {
      nodes := nodes[i := nodes[i].(processingRequested := true)];
      assert AgreeAll(old(nodes), nodes, loadImage);
      AgreeKeepsGraph(old(nodes), nodes, links, loadImage, nodeCounter, slotCounter, linkCounter);
      if FeedRanked(old(nodes), links, rank, old(nodes)[i].inputSlotId) {
        AgreeKeepsDisplayed(old(nodes), nodes, links, loadImage, rank, i);
      }
    }

    /**
      Serves a pending request of ProcessDisplay node `i`: clears the
      request flag, then shows what the node feeding its input evaluates
      to (`ShowInput`). Afterwards a further request on the node would show
      the same image.
    */
    method HandleProcessRequest(i: nat, loadImage: string -> Image, ghost rank: int -> nat, textureOk: bool)
      requires i < |nodes| && nodes[i].kind == ProcessDisplay
      requires nodes[i].processingRequested ==> FeedRanked(nodes, links, rank, nodes[i].inputSlotId)
      modifies this`nodes
      ensures |nodes| == |old(nodes)|
      ensures !old(nodes)[i].processingRequested ==> nodes == old(nodes)
      ensures old(nodes)[i].processingRequested ==>
                var shown := if textureOk then Displayed(old(nodes), links, loadImage, rank, old(nodes)[i]) else None;
                nodes[i] == old(nodes)[i].(processingRequested := false, loadedCvImage := shown, processedImage := shown)
      ensures forall j :: 0 <= j < |nodes| && j != i ==> RefreshedNode(old(nodes)[j], nodes[j], loadImage)
      ensures old(nodes)[i].processingRequested ==>
                && FeedRanked(nodes, links, rank, nodes[i].inputSlotId)
                && Displayed(nodes, links, loadImage, rank, nodes[i]) == Displayed(old(nodes), links, loadImage, rank, old(nodes)[i])
      ensures old(Valid()) ==> Valid()
      ensures old(Wired()) ==> Wired()
    {
      if !nodes[i].processingRequested {
        return;
      }
      nodes := nodes[i := nodes[i].(processingRequested := false)];
      assert AgreeAll(old(nodes), nodes, loadImage);
      AgreeKeepsDisplayed(old(nodes), nodes, links, loadImage, rank, i);
      ShowInput(i, loadImage, rank, textureOk);
      ghost var shown := if textureOk then Displayed(old(nodes), links, loadImage, rank, old(nodes)[i]) else None;
      ServedKeepsDisplayed(old(nodes), nodes, links, loadImage, rank, i, shown);
      AgreeKeepsGraph(old(nodes), nodes, links, loadImage, nodeCounter, slotCounter, linkCounter);
    }

    /** Sets both stored images of ProcessDisplay node `i` to `shown`; `None` clears them. */
    method StoreDisplay(i: nat, shown: Option<Image>, ghost loadImage: string -> Image)
      requires i < |nodes| && nodes[i].kind == ProcessDisplay
      modifies this`nodes
      ensures nodes == old(nodes)[i := old(nodes)[i].(loadedCvImage := shown, processedImage := shown)]
      ensures old(Valid()) ==> Valid()
      ensures old(Wired()) ==> Wired()
    {
      nodes := nodes[i := nodes[i].(loadedCvImage := shown, processedImage := shown)];
      assert AgreeAll(old(nodes), nodes, loadImage);
      AgreeKeepsGraph(old(nodes), nodes, links, loadImage, nodeCounter, slotCounter, linkCounter);
    }

    /**
      Evaluates the node feeding the input of ProcessDisplay node `i` with
      a fresh cache and keeps the result when it is non-empty and could be
      uploaded for display (`textureOk`); otherwise clears the node's
      stored result.
    */
    method ShowInput(i: nat, loadImage: string -> Image, ghost rank: int -> nat, textureOk: bool)
      requires i < |nodes| && nodes[i].kind == ProcessDisplay
      requires FeedRanked(nodes, links, rank, nodes[i].inputSlotId)
      modifies this`nodes
      ensures |nodes| == |old(nodes)|
      ensures var shown := if textureOk then Displayed(old(nodes), links, loadImage, rank, old(nodes)[i]) else None;
              nodes[i] == old(nodes)[i].(loadedCvImage := shown, processedImage := shown)
      ensures forall j :: 0 <= j < |nodes| && j != i ==> RefreshedNode(old(nodes)[j], nodes[j], loadImage)
      ensures old(Valid()) ==> Valid()
      ensures old(Wired()) ==> Wired()
    {
      ghost var shown := Displayed(nodes, links, loadImage, rank, nodes[i]);
      var inputLink := FindLinkConnectedToInput(nodes[i].inputSlotId, links);
      if inputLink.Some? {
        var prevNode := FindNodeByOutputAttr(links[inputLink.value].fromSlot, nodes);
        assert prevNode == InputSource(nodes, links, nodes[i].inputSlotId);
        if prevNode.Some? {
          var prevId := nodes[prevNode.value].id;
          var result := EvaluateFresh(prevId, loadImage, rank);
          assert shown == if IsEmpty(result) then None else Some(result);
          assert nodes[i] == old(nodes)[i];
          if !IsEmpty(result) {
            StoreDisplay(i, Some(result), loadImage);
            if !textureOk {
              StoreDisplay(i, None, loadImage);
            }
          } else {
            StoreDisplay(i, None, loadImage);
          }
        } else {
          StoreDisplay(i, None, loadImage);
        }
      } else {
        StoreDisplay(i, None, loadImage);
      }
    }
  }
}

=== FILE: evaluation.dfy ===
/**
  What the recursive evaluator computes, stated without a cache: the image
  a node denotes given the graph, the node parameters and what loading a
  path yields. The evaluator in the Editor module is proved to agree with
  it, so that memoisation never changes a result.
*/
module Evaluation {
  import opened Images
  import opened NodeModel
  import opened Lookup

  /** `static_cast<int>` of a float: truncation toward zero. */
  function TruncToInt(x: real): (r: int)
    ensures 0.0 <= x ==> 0 <= r && r as real <= x < r as real + 1.0
    ensures x < 0.0 ==> r <= 0 && r as real - 1.0 < x <= r as real
  {
    if 0.0 <= x then x.Floor else -((-x).Floor)
  }

  /** The offset a Brightness node adds: its value truncated, 0 when it has none. */
  function BrightnessOffset(value: Option<real>): (offset: int)
    ensures value.None? ==> offset == 0
    ensures value.Some? && 0.0 <= value.value ==> 0 <= offset && offset as real <= value.value < offset as real + 1.0
    ensures value.Some? && value.value < 0.0 ==> offset <= 0 && offset as real - 1.0 < value.value <= offset as real
  {
    TruncToInt(value.GetOr(0.0))
  }

  /**
    The kernel size a Blur node passes on: the truncated value when it is
    positive and odd, 3 otherwise (also when the node has no value).
  */
  function BlurKernel(value: Option<real>): (k: int)
    ensures 0 < k && k % 2 == 1
    ensures var asked := TruncToInt(value.GetOr(0.0)); 0 < asked && asked % 2 == 1 ==> k == asked
    ensures var asked := TruncToInt(value.GetOr(0.0)); asked <= 0 || asked % 2 == 0 ==> k == 3
  {
    var asked := TruncToInt(value.GetOr(0.0));
    if asked <= 0 || asked % 2 == 0 then 3 else asked
  }

  /** A LoadImage node has a path it can load from. */
  predicate HasPath(n: Node) {
    n.imagePath.Some? && n.imagePath.value != ""
  }

  /**
    What a LoadImage node yields: the image it already holds, or else what
    loading its path gives; an empty image when it has no path.
  */
  function LoadResult(n: Node, loadImage: string -> Image): (r: Image)
    ensures !HasPath(n) ==> IsEmpty(r)
    ensures HasPath(n) && n.loadedCvImage.Some? ==> r == n.loadedCvImage.value
    ensures HasPath(n) && n.loadedCvImage.None? ==> r == loadImage(n.imagePath.value)
  {
    if !HasPath(n) then Empty
    else match n.loadedCvImage
      case Some(img) => img
      case None => loadImage(n.imagePath.value)
  }

  /** A Brightness or Blur node's own operation on its upstream image; empty in, empty out. */
  function Transform(n: Node, input: Image): (r: Image)
    ensures IsEmpty(r) <==> IsEmpty(input)
    ensures !IsEmpty(input) ==> r.rows == input.rows && r.cols == input.cols
  {
    if IsEmpty(input) then Empty
    else if n.kind == Brightness then ApplyBrightness(input, BrightnessOffset(n.value))
    else ApplyBlur(input, BlurKernel(n.value))
  }

  /** Link `m` is the first link that ends at input slot `slot`. */
  predicate FirstLinkInto(links: seq<Link>, slot: int, m: int) {
    0 <= m < |links| && links[m].toSlot == slot && forall q :: 0 <= q < m ==> links[q].toSlot != slot
  }

  /**
    The node that feeds input slot `slot`: the first node owning the
    output slot at which the first link into `slot` starts. When that
    first link starts at no node's output there is no feeding node, even
    if a later link into `slot` would have one.
  */
  function InputSource(nodes: seq<Node>, links: seq<Link>, slot: int): (r: Option<nat>)
    ensures r.Some? ==> r.value < |nodes|
    ensures r.Some? ==> exists m :: FirstLinkInto(links, slot, m)
                                    && links[m].fromSlot == nodes[r.value].outputSlotId
                                    && forall j :: 0 <= j < r.value ==> nodes[j].outputSlotId != links[m].fromSlot
    ensures r.None? <==> || (forall m :: 0 <= m < |links| ==> links[m].toSlot != slot)
                         || (exists m :: FirstLinkInto(links, slot, m)
                                         && forall j :: 0 <= j < |nodes| ==> nodes[j].outputSlotId != links[m].fromSlot)
  {
    match FindLinkConnectedToInput(slot, links)
    case None => None
    case Some(m) =>
      assert FirstLinkInto(links, slot, m);
      FindNodeByOutputAttr(links[m].fromSlot, nodes)
  }

  /** The node a Brightness or Blur node draws its input from. Other kinds have none. */
  function Upstream(nodes: seq<Node>, links: seq<Link>, n: Node): (r: Option<nat>)
    ensures r.Some? ==> r.value < |nodes| && SingleInput(n.kind)
    ensures SingleInput(n.kind) ==> r == InputSource(nodes, links, n.inputSlotId)
  {
    if SingleInput(n.kind) then InputSource(nodes, links, n.inputSlotId) else None
  }

  /** The id of the node that node `id` draws its input from, if it exists and has one. */
  function Next(nodes: seq<Node>, links: seq<Link>, id: int): (next: Option<int>)
    ensures next.Some? <==> FindNodeById(id, nodes).Some? && Upstream(nodes, links, nodes[FindNodeById(id, nodes).value]).Some?
    ensures next.Some? ==> next.value == nodes[Upstream(nodes, links, nodes[FindNodeById(id, nodes).value]).value].id
  {
    match FindNodeById(id, nodes)
    case None => None
    case Some(i) =>
      match Upstream(nodes, links, nodes[i])
      case None => None
      case Some(p) => Some(nodes[p].id)
  }

  /**
    `rank` strictly decreases along the dependency chain the evaluator
    follows from node `id`, so that chain reaches an end. The C++ code has
    no cycle guard: on a chain that runs into a cycle it recurses without
    end, so evaluation is modelled on ranked chains only. Nodes off the
    chain are unconstrained.
  */
  ghost predicate RankedFrom(nodes: seq<Node>, links: seq<Link>, rank: int -> nat, id: int)
    decreases rank(id)
  {
    match Next(nodes, links, id)
    case None => true
    case Some(q) => rank(q) < rank(id) && RankedFrom(nodes, links, rank, q)
  }

  /** The dependency chain from node `id` ends within `fuel` steps. */
  predicate EndsWithin(nodes: seq<Node>, links: seq<Link>, id: int, fuel: nat)
    decreases fuel
  {
    fuel > 0 &&
    match Next(nodes, links, id)
    case None => true
    case Some(q) => EndsWithin(nodes, links, q, fuel - 1)
  }

  /** Steps from node `id` to the end of its chain, counting at most `fuel` of them. */
  function Distance(nodes: seq<Node>, links: seq<Link>, id: int, fuel: nat): nat
    decreases fuel
  {
    if fuel == 0 then 0
    else match Next(nodes, links, id)
      case None => 0
      case Some(q) => Distance(nodes, links, q, fuel - 1) + 1
  }

  /** More fuel does not change a chain that already ends, nor its distance. */
  lemma {:induction false} EndsWithinMore(nodes: seq<Node>, links: seq<Link>, id: int, fuel: nat, more: nat)
    requires EndsWithin(nodes, links, id, fuel) && fuel <= more
    ensures EndsWithin(nodes, links, id, more)
    ensures Distance(nodes, links, id, more) == Distance(nodes, links, id, fuel)
    decreases fuel
  {
    match Next(nodes, links, id)
    case None =>
    case Some(q) => EndsWithinMore(nodes, links, q, fuel - 1, more - 1);
  }

  /** A rank along the chain bounds its length: the chain ends within `rank(id) + 1` steps. */
  lemma {:induction false} RankedChainEnds(nodes: seq<Node>, links: seq<Link>, rank: int -> nat, id: int)
    requires RankedFrom(nodes, links, rank, id)
    ensures EndsWithin(nodes, links, id, rank(id) + 1)
    decreases rank(id)
  {
    match Next(nodes, links, id)
    case None =>
    case Some(q) =>
      RankedChainEnds(nodes, links, rank, q);
      EndsWithinMore(nodes, links, q, rank(q) + 1, rank(id));
  }

  /** Distance to the end of the chain, counting at most `fuel` steps. */
  function DistanceRank(nodes: seq<Node>, links: seq<Link>, fuel: nat): int -> nat {
    x => Distance(nodes, links, x, fuel)
  }

  /** A chain that ends within `f <= fuel` steps is ranked by its distance to the end. */
  lemma {:induction false} ChainEndsRanked(nodes: seq<Node>, links: seq<Link>, id: int, f: nat, fuel: nat)
    requires EndsWithin(nodes, links, id, f) && f <= fuel
    ensures RankedFrom(nodes, links, DistanceRank(nodes, links, fuel), id)
    decreases f
  {
    match Next(nodes, links, id)
    case None =>
    case Some(q) =>
      EndsWithinMore(nodes, links, q, f - 1, fuel - 1);
      assert Distance(nodes, links, id, fuel) == Distance(nodes, links, q, fuel - 1) + 1;
      EndsWithinMore(nodes, links, q, f - 1, fuel);
      ChainEndsRanked(nodes, links, q, f - 1, fuel);
  }

  /**
    The nodes the model evaluates are exactly those whose dependency chain
    ends, which are exactly those on which the C++ recursion returns.
  */
  lemma RankedIffChainEnds(nodes: seq<Node>, links: seq<Link>, id: int)
    ensures (exists rank: int -> nat :: RankedFrom(nodes, links, rank, id))
            <==> (exists fuel: nat :: EndsWithin(nodes, links, id, fuel))
  {
    if rank: int -> nat :| RankedFrom(nodes, links, rank, id) {
      RankedChainEnds(nodes, links, rank, id);
      var fuel: nat := rank(id) + 1;
      assert EndsWithin(nodes, links, id, fuel);
      assert exists f: nat :: EndsWithin(nodes, links, id, f);
    }
    if fuel: nat :| EndsWithin(nodes, links, id, fuel) {
      ChainEndsRanked(nodes, links, id, fuel, fuel);
      var rank: int -> nat := DistanceRank(nodes, links, fuel);
      assert RankedFrom(nodes, links, rank, id);
      assert exists r: int -> nat :: RankedFrom(nodes, links, r, id);
    }
  }

  /** A node whose input feeds from itself heads a chain that never ends, so no rank exists for it. */
  lemma SelfLoopHasNoRank(nodes: seq<Node>, links: seq<Link>, rank: int -> nat, id: int)
    requires Next(nodes, links, id) == Some(id)
    ensures !RankedFrom(nodes, links, rank, id)
  {
  }

  /**
    The image node `id` evaluates to, with no cache involved: empty for a
    missing or ProcessDisplay node, the load result for a LoadImage node,
    and for a Brightness or Blur node its operation on its upstream node's
    image, or empty without an upstream node.
  */
  ghost function Denote(nodes: seq<Node>, links: seq<Link>, loadImage: string -> Image, rank: int -> nat, id: int): (img: Image)
    requires RankedFrom(nodes, links, rank, id)
    ensures !IsEmpty(img) ==> FindNodeById(id, nodes).Some?
    ensures !IsEmpty(img) ==> var n := nodes[FindNodeById(id, nodes).value];
                              n.kind != ProcessDisplay && (SingleInput(n.kind) ==> Upstream(nodes, links, n).Some?)
    decreases rank(id)
  {
    match FindNodeById(id, nodes)
    case None => Empty
    case Some(i) =>
      match nodes[i].kind
      case LoadImage => LoadResult(nodes[i], loadImage)
      case ProcessDisplay => Empty
      case _ =>
        match Upstream(nodes, links, nodes[i])
        case None => Empty
        case Some(p) => Transform(nodes[i], Denote(nodes, links, loadImage, rank, nodes[p].id))
  }

  /** Every cache entry is what its node denotes: the cache can stand in for recomputation. */
  ghost predicate Coherent(nodes: seq<Node>, links: seq<Link>, loadImage: string -> Image, rank: int -> nat, cache: map<int, Image>) {
    forall k :: k in cache ==> RankedFrom(nodes, links, rank, k) && cache[k] == Denote(nodes, links, loadImage, rank, k)
  }

  /**
    One evaluation step of node `before[i]`, given the cache after its
    upstream node was evaluated: a LoadImage node returns what it loads and
    afterwards holds exactly that image (when it has a path); a
    ProcessDisplay node yields an empty image; a Brightness or Blur node
    yields an empty image without an upstream node, and otherwise applies
    its operation to the upstream node's cached image.
  */
  ghost predicate LocalStep(before: seq<Node>, after: seq<Node>, links: seq<Link>, loadImage: string -> Image,
                            i: nat, cache: map<int, Image>, result: Image)
    requires i < |before|
  {
    var n := before[i];
    match n.kind
    case LoadImage =>
      && result == LoadResult(n, loadImage)
      && (HasPath(n) ==> after == before[i := n.(loadedCvImage := Some(result))])
      && (!HasPath(n) ==> after == before)
    case ProcessDisplay =>
      result == Empty && after == before
    case _ =>
      match Upstream(before, links, n)
      case None => result == Empty && after == before
      case Some(p) => before[p].id in cache && result == Transform(n, cache[before[p].id])
  }

  /** The chain from the node feeding input slot `slot`, if any, is ranked. */
  ghost predicate FeedRanked(nodes: seq<Node>, links: seq<Link>, rank: int -> nat, slot: int) {
    match InputSource(nodes, links, slot)
    case None => true
    case Some(p) => RankedFrom(nodes, links, rank, nodes[p].id)
  }

  /**
    What a ProcessDisplay node `n` shows after a "Process Graph" request:
    the non-empty image the node feeding its input evaluates to, or
    nothing when its input is unlinked, the link starts at no node's
    output, or the evaluation fails.
  */
  ghost function Displayed(nodes: seq<Node>, links: seq<Link>, loadImage: string -> Image, rank: int -> nat, n: Node): (shown: Option<Image>)
    requires FeedRanked(nodes, links, rank, n.inputSlotId)
    ensures shown.Some? ==> !IsEmpty(shown.value)
    ensures shown.Some? ==> InputSource(nodes, links, n.inputSlotId).Some?
    ensures (forall m :: 0 <= m < |links| ==> links[m].toSlot != n.inputSlotId) ==> shown.None?
  {
    match InputSource(nodes, links, n.inputSlotId)
    case None => None
    case Some(p) =>
      var img := Denote(nodes, links, loadImage, rank, nodes[p].id);
      if IsEmpty(img) then None else Some(img)
  }

  /** One unfolding of `Denote` at a node that exists. */
  lemma DenoteAt(nodes: seq<Node>, links: seq<Link>, loadImage: string -> Image, rank: int -> nat, id: int, i: nat)
    requires RankedFrom(nodes, links, rank, id)
    requires FindNodeById(id, nodes) == Some(i)
    ensures nodes[i].kind == LoadImage ==> Denote(nodes, links, loadImage, rank, id) == LoadResult(nodes[i], loadImage)
    ensures nodes[i].kind == ProcessDisplay ==> Denote(nodes, links, loadImage, rank, id) == Empty
    ensures SingleInput(nodes[i].kind) && Upstream(nodes, links, nodes[i]).None? ==>
              Denote(nodes, links, loadImage, rank, id) == Empty
    ensures SingleInput(nodes[i].kind) && Upstream(nodes, links, nodes[i]).Some? ==>
              var p := Upstream(nodes, links, nodes[i]).value;
              rank(nodes[p].id) < rank(id) && RankedFrom(nodes, links, rank, nodes[p].id) &&
              Denote(nodes, links, loadImage, rank, id) == Transform(nodes[i], Denote(nodes, links, loadImage, rank, nodes[p].id))
  {
  }

  /** Storing what a node denotes keeps a cache coherent. */
  lemma CoherentStore(nodes: seq<Node>, links: seq<Link>, loadImage: string -> Image, rank: int -> nat,
                      cache: map<int, Image>, id: int, img: Image)
    requires Coherent(nodes, links, loadImage, rank, cache)
    requires RankedFrom(nodes, links, rank, id) && img == Denote(nodes, links, loadImage, rank, id)
    ensures Coherent(nodes, links, loadImage, rank, cache[id := img])
  {
  }

  /** The LoadImage node the dependency chain from `id` ends at, if it reaches one. */
  ghost function Source(nodes: seq<Node>, links: seq<Link>, rank: int -> nat, id: int): (s: Option<nat>)
    requires RankedFrom(nodes, links, rank, id)
    ensures s.Some? ==> s.value < |nodes| && nodes[s.value].kind == LoadImage
    decreases rank(id)
  {
    match FindNodeById(id, nodes)
    case None => None
    case Some(i) =>
      if nodes[i].kind == LoadImage then Some(i)
      else match Upstream(nodes, links, nodes[i])
        case None => None
        case Some(p) => Source(nodes, links, rank, nodes[p].id)
  }

  /**
    Failure propagates: a node yields a non-empty image exactly when its
    chain reaches a LoadImage node that yields one, and then the result
    has that image's size.
  */
  lemma {:induction false} DenoteComesFromSource(nodes: seq<Node>, links: seq<Link>, loadImage: string -> Image, rank: int -> nat, id: int)
    requires RankedFrom(nodes, links, rank, id)
    ensures var img := Denote(nodes, links, loadImage, rank, id);
            var src := Source(nodes, links, rank, id);
            && (!IsEmpty(img) <==> src.Some? && !IsEmpty(LoadResult(nodes[src.value], loadImage)))
            && (!IsEmpty(img) ==>
                  img.rows == LoadResult(nodes[src.value], loadImage).rows &&
                  img.cols == LoadResult(nodes[src.value], loadImage).cols)
    decreases rank(id)
  {
    match FindNodeById(id, nodes)
    case None =>
    case Some(i) =>
      if nodes[i].kind != LoadImage {
        match Upstream(nodes, links, nodes[i])
        case None =>
        case Some(p) => DenoteComesFromSource(nodes, links, loadImage, rank, nodes[p].id);
      }
  }

  /** The result does not depend on which rank witnessed that the chain ends. */
  lemma {:induction false} DenoteIgnoresRank(nodes: seq<Node>, links: seq<Link>, loadImage: string -> Image, rank1: int -> nat, rank2: int -> nat, id: int)
    requires RankedFrom(nodes, links, rank1, id) && RankedFrom(nodes, links, rank2, id)
    ensures Denote(nodes, links, loadImage, rank1, id) == Denote(nodes, links, loadImage, rank2, id)
    decreases rank1(id)
  {
    match FindNodeById(id, nodes)
    case None =>
    case Some(i) =>
      match Upstream(nodes, links, nodes[i])
      case None =>
      case Some(p) => DenoteIgnoresRank(nodes, links, loadImage, rank1, rank2, nodes[p].id);
  }

  /**
    `b` carries everything of `a` that evaluation reads: identity, kind,
    slots, parameter and, for a LoadImage node, what it loads.
  */
  predicate Agree(a: Node, b: Node, loadImage: string -> Image) {
    && a.id == b.id && a.kind == b.kind
    && a.inputSlotId == b.inputSlotId && a.outputSlotId == b.outputSlotId
    && a.value == b.value
    && (a.kind == LoadImage ==> LoadResult(a, loadImage) == LoadResult(b, loadImage))
  }

  predicate AgreeAll(a: seq<Node>, b: seq<Node>, loadImage: string -> Image) {
    |a| == |b| && forall j :: 0 <= j < |a| ==> Agree(a[j], b[j], loadImage)
  }

  /** Node sequences that agree lead every lookup and dependency to the same place. */
  lemma AgreeKeepsUpstream(a: seq<Node>, b: seq<Node>, links: seq<Link>, loadImage: string -> Image)
    requires AgreeAll(a, b, loadImage)
    ensures forall id :: FindNodeById(id, a) == FindNodeById(id, b)
    ensures forall slot :: InputSource(a, links, slot) == InputSource(b, links, slot)
    ensures forall j :: 0 <= j < |a| ==> Upstream(a, links, a[j]) == Upstream(b, links, b[j])
  {
    forall id ensures FindNodeById(id, a) == FindNodeById(id, b) {
      SameIdsSameFind(a, b, id);
    }
    forall slot ensures InputSource(a, links, slot) == InputSource(b, links, slot) {
      var li := FindLinkConnectedToInput(slot, links);
      if li.Some? {
        SameOutputsSameFind(a, b, links[li.value].fromSlot);
      }
    }
    forall j | 0 <= j < |a| ensures Upstream(a, links, a[j]) == Upstream(b, links, b[j]) {
      assert InputSource(a, links, a[j].inputSlotId) == InputSource(b, links, b[j].inputSlotId);
    }
  }

  /** Evaluation reads only what `Agree` keeps, so agreeing graphs evaluate alike. */
  lemma {:induction false} AgreeKeepsDenote(a: seq<Node>, b: seq<Node>, links: seq<Link>, loadImage: string -> Image, rank: int -> nat, id: int)
    requires AgreeAll(a, b, loadImage) && RankedFrom(a, links, rank, id)
    ensures RankedFrom(b, links, rank, id)
    ensures Denote(b, links, loadImage, rank, id) == Denote(a, links, loadImage, rank, id)
    decreases rank(id)
  {
    AgreeKeepsUpstream(a, b, links, loadImage);
    var found := FindNodeById(id, a);
    if found.Some? {
      var i := found.value;
      assert Agree(a[i], b[i], loadImage);
      var up := Upstream(a, links, a[i]);
      if up.Some? {
        assert a[up.value].id == b[up.value].id;
        AgreeKeepsDenote(a, b, links, loadImage, rank, a[up.value].id);
      }
      DenoteAt(a, links, loadImage, rank, id, i);
      DenoteAt(b, links, loadImage, rank, id, i);
    }
  }

  /** Agreeing graphs feed a display input from the same node and so show the same image. */
  lemma AgreeKeepsDisplayed(a: seq<Node>, b: seq<Node>, links: seq<Link>, loadImage: string -> Image, rank: int -> nat, i: nat)
    requires i < |a| && AgreeAll(a, b, loadImage) && FeedRanked(a, links, rank, a[i].inputSlotId)
    ensures InputSource(b, links, b[i].inputSlotId) == InputSource(a, links, a[i].inputSlotId)
    ensures FeedRanked(b, links, rank, b[i].inputSlotId)
    ensures Displayed(b, links, loadImage, rank, b[i]) == Displayed(a, links, loadImage, rank, a[i])
  {
    AgreeKeepsUpstream(a, b, links, loadImage);
    assert Agree(a[i], b[i], loadImage);
    var src := InputSource(a, links, a[i].inputSlotId);
    if src.Some? {
      assert Agree(a[src.value], b[src.value], loadImage);
      AgreeKeepsDenote(a, b, links, loadImage, rank, a[src.value].id);
    }
  }

  /** `b` is `a`, or `a` is a LoadImage node with a path that has now read its image. */
  predicate RefreshedNode(a: Node, b: Node, loadImage: string -> Image) {
    || b == a
    || (&& a.kind == LoadImage && HasPath(a) && a.loadedCvImage.None?
        && b == a.(loadedCvImage := Some(loadImage(a.imagePath.value))))
  }

  /** Every node of `b` is its counterpart in `a`, possibly with its image now loaded. */
  predicate Refreshed(a: seq<Node>, b: seq<Node>, loadImage: string -> Image) {
    |a| == |b| && forall j :: 0 <= j < |a| ==> RefreshedNode(a[j], b[j], loadImage)
  }

  /**
    Loading images during an evaluation never changes what any node
    evaluates to: evaluating again after a pass gives the same images.
  */
  lemma RefreshKeepsDenote(a: seq<Node>, b: seq<Node>, links: seq<Link>, loadImage: string -> Image, rank: int -> nat)
    requires Refreshed(a, b, loadImage)
    ensures forall id :: RankedFrom(a, links, rank, id) ==>
              RankedFrom(b, links, rank, id) && Denote(b, links, loadImage, rank, id) == Denote(a, links, loadImage, rank, id)
  {
    assert AgreeAll(a, b, loadImage);
    forall id | RankedFrom(a, links, rank, id)
      ensures RankedFrom(b, links, rank, id) && Denote(b, links, loadImage, rank, id) == Denote(a, links, loadImage, rank, id)
    {
      AgreeKeepsDenote(a, b, links, loadImage, rank, id);
    }
  }

  /**
    Serving a request of ProcessDisplay node `i` rewrites only that node's
    flag and stored images and first loads elsewhere, so a later request
    on the same node shows the same image.
  */
  lemma ServedKeepsDisplayed(a: seq<Node>, b: seq<Node>, links: seq<Link>, loadImage: string -> Image, rank: int -> nat,
                             i: nat, shown: Option<Image>)
    requires i < |a| == |b| && a[i].kind == ProcessDisplay
    requires b[i] == a[i].(processingRequested := false, loadedCvImage := shown, processedImage := shown)
    requires forall j :: 0 <= j < |a| && j != i ==> RefreshedNode(a[j], b[j], loadImage)
    requires FeedRanked(a, links, rank, a[i].inputSlotId)
    ensures AgreeAll(a, b, loadImage)
    ensures FeedRanked(b, links, rank, b[i].inputSlotId)
    ensures Displayed(b, links, loadImage, rank, b[i]) == Displayed(a, links, loadImage, rank, a[i])
  {
    assert AgreeAll(a, b, loadImage) by {
      forall j | 0 <= j < |a| ensures Agree(a[j], b[j], loadImage) {
        if j != i {
          assert RefreshedNode(a[j], b[j], loadImage);
        }
      }
    }
    AgreeKeepsDisplayed(a, b, links, loadImage, rank, i);
  }
}

=== FILE: images.dfy ===
/**
  The image library as the graph engine sees it. Images are opaque values:
  a term records which operations produced the pixels, so that loading,
  brightness and blur behave as free (uninterpreted) functions. Only
  emptiness and size matter to the engine.
*/
module Images {

  /** How the pixels of a non-empty image came to be. */
  datatype Pixels =
    | Decoded(file: string, variant: nat)
    | Brightened(source: Pixels, offset: int)
    | Blurred(source: Pixels, kernel: int)

  /** An image buffer; `Empty` is the default-constructed, failed result. */
  datatype Image = Empty | Mat(rows: nat, cols: nat, pixels: Pixels)

  /** An image with no pixels at all. */
  predicate IsEmpty(img: Image) {
    img.Empty? || img.rows == 0 || img.cols == 0
  }

  /** C++ `k / 2` on int: the quotient truncated toward zero. */
  function HalfTowardZero(k: int): int {
    if 0 <= k then k / 2 else -((-k) / 2)
  }

  /** The kernel size the blur wrapper passes on: `(k / 2) * 2 + 1`. */
  function OddKernel(k: int): (r: int)
    ensures r % 2 == 1
    ensures 0 < k && k % 2 == 1 ==> r == k
    ensures 0 <= k ==> 0 < r && k <= r <= k + 1
  {
    HalfTowardZero(k) * 2 + 1
  }

  /** Shifts every pixel by `offset`; the size is kept and an empty input stays empty. */
  function ApplyBrightness(img: Image, offset: int): (r: Image)
    ensures IsEmpty(r) <==> IsEmpty(img)
    ensures !IsEmpty(img) ==> r.rows == img.rows && r.cols == img.cols
  {
    if IsEmpty(img) then Empty else Mat(img.rows, img.cols, Brightened(img.pixels, offset))
  }

  /** Gaussian blur with an odd kernel; the size is kept and an empty input stays empty. */
  function ApplyBlur(img: Image, kernelSize: int): (r: Image)
    ensures IsEmpty(r) <==> IsEmpty(img)
    ensures !IsEmpty(img) ==> r.rows == img.rows && r.cols == img.cols
    ensures !IsEmpty(img) ==> r.pixels.Blurred? && r.pixels.kernel % 2 == 1
  {
    if IsEmpty(img) then Empty else Mat(img.rows, img.cols, Blurred(img.pixels, OddKernel(kernelSize)))
  }
}

=== FILE: lookup.dfy ===
/**
  The three linear scans the engine uses to follow the graph. Each returns
  the index of the FIRST match in sequence order (the element the C++ scan
  points to), or None.
*/
module Lookup {
  import opened NodeModel

  /** The first node whose id is `nodeId`. */
  function FindNodeById(nodeId: int, nodes: seq<Node>): (r: Option<nat>)
    ensures r.Some? ==> r.value < |nodes| && nodes[r.value].id == nodeId
    ensures r.Some? ==> forall j :: 0 <= j < r.value ==> nodes[j].id != nodeId
    ensures r.None? <==> forall j :: 0 <= j < |nodes| ==> nodes[j].id != nodeId
  {
    if |nodes| == 0 then None
    else if nodes[0].id == nodeId then Some(0)
    else match FindNodeById(nodeId, nodes[1..])
      case None => None
      case Some(i) => Some(i + 1)
  }

  /** The first link that ends at slot `inputAttrId`. */
  function FindLinkConnectedToInput(inputAttrId: int, links: seq<Link>): (r: Option<nat>)
    ensures r.Some? ==> r.value < |links| && links[r.value].toSlot == inputAttrId
    ensures r.Some? ==> forall m :: 0 <= m < r.value ==> links[m].toSlot != inputAttrId
    ensures r.None? <==> forall m :: 0 <= m < |links| ==> links[m].toSlot != inputAttrId
  {
    if |links| == 0 then None
    else if links[0].toSlot == inputAttrId then Some(0)
    else match FindLinkConnectedToInput(inputAttrId, links[1..])
      case None => None
      case Some(m) => Some(m + 1)
  }

  /** The first node whose output slot is `outputAttrId`. */
  function FindNodeByOutputAttr(outputAttrId: int, nodes: seq<Node>): (r: Option<nat>)
    ensures r.Some? ==> r.value < |nodes| && nodes[r.value].outputSlotId == outputAttrId
    ensures r.Some? ==> forall j :: 0 <= j < r.value ==> nodes[j].outputSlotId != outputAttrId
    ensures r.None? <==> forall j :: 0 <= j < |nodes| ==> nodes[j].outputSlotId != outputAttrId
  {
    if |nodes| == 0 then None
    else if nodes[0].outputSlotId == outputAttrId then Some(0)
    else match FindNodeByOutputAttr(outputAttrId, nodes[1..])
      case None => None
      case Some(i) => Some(i + 1)
  }

  /** Two node sequences with the same ids position by position give the same id lookup. */
  lemma SameIdsSameFind(a: seq<Node>, b: seq<Node>, nodeId: int)
    requires |a| == |b|
    requires forall j :: 0 <= j < |a| ==> a[j].id == b[j].id
    ensures FindNodeById(nodeId, a) == FindNodeById(nodeId, b)
  {
  }

  /** Two node sequences with the same output slots position by position give the same output-slot lookup. */
  lemma SameOutputsSameFind(a: seq<Node>, b: seq<Node>, outputAttrId: int)
    requires |a| == |b|
    requires forall j :: 0 <= j < |a| ==> a[j].outputSlotId == b[j].outputSlotId
    ensures FindNodeByOutputAttr(outputAttrId, a) == FindNodeByOutputAttr(outputAttrId, b)
  {
  }
}

=== FILE: node_model.dfy ===
/**
  Nodes and links of the editor's graph: the records every other module
  reads and updates. Ports are plain integer slot ids; -1 means "no such
  port".
*/
module NodeModel {
  import opened Images

  datatype Option<T> = None | Some(value: T) {
    /** The wrapped value, or `default` when absent. */
    function GetOr(default: T): T {
      match this
      case Some(v) => v
      case None => default
    }
  }

  /** The four kinds of node the editor creates. */
  datatype OperationType = Blur | Brightness | LoadImage | ProcessDisplay

  /** Slot id of a port a node does not have. */
  const NoSlot: int := -1

  /**
    A node of the graph. `value` is the Brightness offset or Blur kernel
    size as entered, `imagePath` the LoadImage path, `loadedCvImage` the
    image a LoadImage node has read (or the result a ProcessDisplay node
    shows), `processedImage` the result a ProcessDisplay node can save.
    Editor-only state (position, width, texture id, displayed size) is
    not modelled.
  */
  datatype Node = Node(
    id: int,
    kind: OperationType,
    name: string,
    inputSlotId: int,
    outputSlotId: int,
    value: Option<real>,
    imagePath: Option<string>,
    loadedCvImage: Option<Image>,
    processedImage: Option<Image>,
    processingRequested: bool)

  /** A directed edge from one slot to another; it owns neither. */
  datatype Link = Link(id: int, fromSlot: int, toSlot: int)

  /** A node as declared, before any slot is assigned: no ports, no parameter, no image. */
  function DeclaredNode(id: int, kind: OperationType, name: string): (n: Node)
    ensures n.id == id && n.kind == kind && n.name == name
    ensures n.inputSlotId == NoSlot && n.outputSlotId == NoSlot && Ports(n) == {}
    ensures n.value.None? && n.imagePath.None? && n.loadedCvImage.None? && n.processedImage.None?
    ensures !n.processingRequested
  {
    Node(id, kind, name, NoSlot, NoSlot, None, None, None, None, false)
  }

  /** Brightness and Blur are the kinds whose input the editor keeps to one incoming link. */
  predicate SingleInput(kind: OperationType) {
    kind == Brightness || kind == Blur
  }

  /** The slot ids a node actually owns. */
  function Ports(n: Node): (ports: set<int>)
    ensures NoSlot !in ports
    ensures forall s :: s in ports <==> s != NoSlot && (s == n.inputSlotId || s == n.outputSlotId)
  {
    (if n.inputSlotId != NoSlot then {n.inputSlotId} else {})
      + (if n.outputSlotId != NoSlot then {n.outputSlotId} else {})
  }
}

=== FILE: settings.dfy ===
/**
  Parameter holders of the image operations. Each setter checks its
  argument against the operation's admissible range and either stores it
  and answers true, or answers false and leaves the holder as it was, so
  a holder built by its constructor never leaves its range.
  C++ `double` values are modelled as reals.
*/
module Settings {

  /** The path a load operation reads from; fixed at construction. */
  class LoadSettings {
    const loadPath: string

    constructor (path: string)
      ensures GetPath() == path
    {
      loadPath := path;
    }

    function GetPath(): string {
      loadPath
    }
  }

  /** The path a save operation writes to. */
  class SaveSettings {
    var savePath: string

    constructor (path: string)
      ensures GetPath() == path
    {
      savePath := path;
    }

    function GetPath(): string
      reads this
    {
      savePath
    }
  }

  /** A brightness change in percent, within [-100, 100]. */
  class BrightnessSettings {
    var pct: int

    ghost predicate Valid()
      reads this
    {
      -100 <= pct <= 100
    }

    constructor ()
      ensures Valid() && GetBrightnessVal(this) == 0
    {
      pct := 0;
    }

    /** Reads the percentage of `s`; the receiver plays no part. */
    function GetBrightnessVal(s: BrightnessSettings): (v: int)
      reads s
      ensures s.Valid() ==> -100 <= v <= 100
    {
      s.pct
    }

    /**
      Stores `newVal` in `s` when it lies in [-100, 100]; otherwise `s` is
      left as it was. It is `s` that changes, not the receiver.
    */
    method SetBrightnessVal(s: BrightnessSettings, newVal: int) returns (ok: bool)
      modifies s
      ensures ok <==> -100 <= newVal <= 100
      ensures GetBrightnessVal(s) == if ok then newVal else old(GetBrightnessVal(s))
      ensures old(s.Valid()) ==> s.Valid()
    {
      if newVal < -100 || newVal > 100 {
        return false;
      }
      s.pct := newVal;
      return true;
    }
  }

  /** A contrast factor within [0.0, 3.0]; 1.0 leaves the image as it is. */
  class ContrastSettings {
    var factor: real

    ghost predicate Valid()
      reads this
    {
      0.0 <= factor <= 3.0
    }

    constructor ()
      ensures Valid() && GetValue() == 1.0
    {
      factor := 1.0;
    }

    function GetValue(): (v: real)
      reads this
      ensures Valid() ==> 0.0 <= v <= 3.0
    {
      factor
    }

    /** Stores `newVal` when it lies in [0.0, 3.0], both ends included. */
    method SetValue(newVal: real) returns (ok: bool)
      modifies this
      ensures ok <==> 0.0 <= newVal <= 3.0
      ensures GetValue() == if ok then newVal else old(GetValue())
      ensures old(Valid()) ==> Valid()
    {
      if newVal < 0.0 || newVal > 3.0 {
        return false;
      }
      factor := newVal;
      return true;
    }
  }

  /** A blur kernel size, always positive and odd. */
  class BlurSettings {
    var kernelSize: int

    ghost predicate Valid()
      reads this
    {
      0 < kernelSize && kernelSize % 2 == 1
    }

    constructor ()
      ensures Valid() && GetKernelSize() == 3
    {
      kernelSize := 3;
    }

    function GetKernelSize(): (k: int)
      reads this
      ensures Valid() ==> 0 < k && k % 2 == 1
    {
      kernelSize
    }

    /** Stores `k` when it is positive and odd. */
    method SetKernelSize(k: int) returns (ok: bool)
      modifies this
      ensures ok <==> 0 < k && k % 2 == 1
      ensures GetKernelSize() == if ok then k else old(GetKernelSize())
      ensures old(Valid()) ==> Valid()
    {
      if k <= 0 || k % 2 == 0 {
        return false;
      }
      kernelSize := k;
      return true;
    }
  }

  /** The fraction of pixels noise touches, within [0.0, 1.0]; 5% by default. */
  class NoiseSettings {
    var amount: real

    ghost predicate Valid()
      reads this
    {
      0.0 <= amount <= 1.0
    }

    constructor ()
      ensures Valid() && GetAmount() == 0.05
    {
      amount := 0.05;
    }

    function GetAmount(): (a: real)
      reads this
      ensures Valid() ==> 0.0 <= a <= 1.0
    {
      amount
    }

    /** Stores `a` when it lies in [0.0, 1.0], both ends included. */
    method SetAmount(a: real) returns (ok: bool)
      modifies this
      ensures ok <==> 0.0 <= a <= 1.0
      ensures GetAmount() == if ok then a else old(GetAmount())
      ensures old(Valid()) ==> Valid()
    {
      if a < 0.0 || a > 1.0 {
        return false;
      }
      amount := a;
      return true;
    }
  }
}
